=== FILE: README.md ===
# Reload All Tabs (in Window) — a verified model

This project models the logic of a small browser extension. The extension
reloads every tab of a window, one after another, sleeping between reloads.
The model covers its three pieces of sequential logic:

- **Settings** (`OptionsLib`, src/options.lib.js). There is one settings record
  with five typed fields and fixed defaults. The load asks storage for the five
  keys. It overwrites a field only when the stored value passes that field's
  type test: a number that is not NaN, or a boolean. The shared `options`
  object is the class `OptionsObject`. Each field holds any of the stored
  value kinds `Value` lists, and `Valid()` says each holds its declared type. `LoadOptions` keeps
  `Valid()` and equals the specification function `Loaded`.
- **Reload procedure** (`ServiceWorker`, src/service-worker.js).
  `Worker.ReloadAllTabs` first refreshes the settings. It then checks the
  per-window guard `reloadingSet`. If the window is free, it runs the loop over
  the tabs the query returned. The result is a trace of `Reload(id)` and
  `Sleep(ms)` events. `OnMenuClicked` is the context-menu click dispatch.
- **Options page** (`OptionsPage`, src/options.js), without the DOM. It covers:
  - `toInt` over field text, through a model of `Number.parseInt` (`JsBuiltins`);
  - the text a number field starts with;
  - the dirty check that enables Save;
  - the record a save writes, and the status and menu refresh that follow;
  - the page context-menu entry the settings call for.

The model follows the code where the code differs from what it seems to intend:

- A sleep follows every tab, the last one included.
- The guard is released only when the loop finishes normally. The removal at
  src/service-worker.js:86 is inside the `try`, not in a `finally`. When the tab
  query fails, the window stays in `reloadingSet`, and every later call for that
  window is a no-op (`StuckAfterFailedQuery`).
- The advanced delay is `start + r * end` with `0 <= r < 1`. The options page
  labels the fields as a range `[start, end]`, but when end > 0 the
  delay lies in `[start, start + end)`; with end 0 it is exactly start, and with
  a negative end it lies in `(start + end, start]`. With start 100 and end 150 it can be 235
  (`PickBetweenExceedsRangeEnd`).

Browser calls are inputs or outputs. Inputs are the contents of the storage
area, the error the host reports, the tab list (or a failing query), and the
sequence of `Math.random()` fractions, as exact reals in `[0, 1)`. Outputs are
the trace events, the record written, the menu command and the status text.
The model includes the radix-less "0x"/"0X" hexadecimal prefix of parseInt, as
in section 19.2.5 of ECMA-262 (2023 edition): "0x1f" reads as 31, and "0x10"
as 16 (`ParseIntReadsHexRun`).

## Model

| member | source | states |
|---|---|---|
| `JsBuiltins.ParseIntOfToString` | src/options.js:198-199 | for every integer v, parseInt reads the base-10 string of v back as v |
| `JsBuiltins.ParseIntOfNoDigits` | src/options.js:224 | text without a decimal digit (empty, letters, a lone sign) parses to NaN |
| `JsBuiltins.ParseIntReadsDecimalRun` | src/options.js:224 | for every text made of white space, an optional "-" or "+", a run of decimal digits and a rest that does not start with a digit, parseInt gives the signed value of the run, whatever the rest holds; the one exception is a run "0" followed by "x" or "X", which starts a hexadecimal numeral |
| `JsBuiltins.ParseIntReadsHexRun` | src/options.js:224 | for every text made of white space, an optional sign, "0x" or "0X", a run of hexadecimal digits and a rest that does not start with one, parseInt gives the signed radix-16 value of the run; with no hexadecimal digit after the prefix it gives NaN |
| `OptionsLib.IsNumber` | src/options.lib.js:49-51 | `isNumber`: a number that is not NaN (`Num`); the load uses it as the guard of the three numeric fields, see `LoadReplacesOnlyWellTyped` |
| `OptionsLib.IsBoolean` | src/options.lib.js:42-44 | `isBoolean`: a boolean value (`Bool`); the guard of the two flags, see `LoadTakesWellTyped` |
| `OptionsLib.Loaded` | src/options.lib.js:27-31 | the settings the load leaves: each field takes its stored value when that passes the field's type test, and keeps its old value otherwise; its properties are `LoadReplacesOnlyWellTyped`, `LoadTakesWellTyped`, `LoadFieldsIndependent`, `LoadIgnoresOtherKeys`, `LoadIdempotent`, `LoadOfStored` and `LoadOfEmpty` |
| `OptionsLib.OptionsObject.constructor` | src/options.lib.js:1-8 | before any load the options are delay 0, page menu item true, advanced mode false, range 0 to 0, all well-typed |
| `OptionsLib.OptionKeysAreTheFields` | src/options.lib.js:10 | the keys asked of storage are five distinct names, exactly the keys of the record a save writes |
| `OptionsLib.StorageGet` | src/options.lib.js:15 | the storage read returns the stored value under each asked key and nothing under any other key |
| `OptionsLib.Stored` | src/options.js:112 | the record a save writes has exactly the five setting keys |
| `OptionsLib.OptionsObject.LoadOptions` | src/options.lib.js:13-36 | the load always completes, ignores the error channel, keeps every field at its declared type, and leaves the settings `Loaded` gives |
| `OptionsLib.LoadReplacesOnlyWellTyped` | src/options.lib.js:27-31 | a numeric field changes only to a stored non-NaN number and a boolean field only to a stored boolean; absent, NaN, string or wrongly typed values leave it unchanged |
| `OptionsLib.LoadTakesWellTyped` | src/options.lib.js:27-31 | a stored value that passes the field's type test always becomes the field's value |
| `OptionsLib.LoadFieldsIndependent` | src/options.lib.js:18-31 | each field after the load depends only on that field before and on the value under that field's key |
| `OptionsLib.LoadIgnoresOtherKeys` | src/options.lib.js:15-31 | stored keys outside the five never affect the load |
| `OptionsLib.LoadIdempotent` | src/options.lib.js:27-31 | loading the same record twice gives the same settings as loading it once |
| `OptionsLib.LoadOfStored` | src/options.lib.js:27-31 | a record written by a save is loaded back exactly, whatever was in memory |
| `OptionsLib.LoadOfEmpty` | src/options.lib.js:27-31 | an empty store leaves the settings as they were, so a first load with nothing saved yields the defaults |
| `ServiceWorker.PickBetween` | src/service-worker.js:120-122 | `pickBetween` as min + r * max, with `Math.random()` given as r; bounds in `PickBetweenBounds` |
| `ServiceWorker.SleepDelay` | src/service-worker.js:80-84 | the sleep after a tab: `pickBetween(start, end)` when `use_advanced_options` is true, `delay` otherwise; bounds in `SleepDelayBounds` |
| `ServiceWorker.ReloadTab` | src/service-worker.js:94-102 | the reload of one tab: a reload event when the tab has an id, nothing otherwise; counted by `LoopReloadsEachTabInOrder` |
| `ServiceWorker.LoopTrace` | src/service-worker.js:78-85 | the events of the loop over the tabs: each tab's reload followed by one sleep, the i-th drawn with the i-th fraction; `ReloadLoop` computes it, and `LoopReloadsEachTabInOrder`, `LoopSleepsOncePerTab` and `LoopEndsWithSleep` state its content |
| `ServiceWorker.PickBetweenBounds` | src/service-worker.js:120-122 | for a fraction in [0, 1), the delay lies in [min, min + max) for positive max, equals min for max 0, and lies in (min + max, min] for negative max |
| `ServiceWorker.PickBetweenExceedsRangeEnd` | src/service-worker.js:120-122 | the advanced delay can exceed the range end: 100 + 0.9 * 150 = 235 > 150 |
| `ServiceWorker.SleepDelayBounds` | src/service-worker.js:80-84 | the sleep is the fixed delay unless advanced mode is on; then it lies in [start, start + end) when end > 0 |
| `ServiceWorker.LoopReloadsEachTabInOrder` | src/service-worker.js:78-79 | the loop reloads each tab that has an id exactly once, in query order, and never a tab without an id |
| `ServiceWorker.LoopSleepsOncePerTab` | src/service-worker.js:78-85 | there is exactly one sleep per tab (id-less tabs included), and the i-th sleep is the delay drawn with the i-th fraction |
| `ServiceWorker.LoopEndsWithSleep` | src/service-worker.js:78-85 | a sleep follows the last tab too |
| `ServiceWorker.LoopTraceTabByTab` | src/service-worker.js:78-85 | the trace is built tab by tab: for each i, the events of the tabs before i, then tab i's reload, then its sleep, form a prefix of the trace, so the i-th sleep falls after the i-th tab's reload and before the next tab's |
| `ServiceWorker.ThreeTabsExample` | src/service-worker.js:78-85 | tabs 1, 2, 3 with delay 0 give reload 1, sleep 0, reload 2, sleep 0, reload 3, sleep 0 |
| `ServiceWorker.ReloadLoop` | src/service-worker.js:78-85 | the `for` loop's events are exactly the trace `LoopTrace` specifies |
| `ServiceWorker.Worker.constructor` | src/service-worker.js:3 | the guard set starts empty |
| `ServiceWorker.Worker.ReloadAllTabs` | src/service-worker.js:73-91 | the settings are refreshed first. If the window is in the set, nothing is reloaded or slept and the set is unchanged. If the query fails, nothing is reloaded and the window stays in the set. Otherwise the trace is the loop's (empty for zero tabs) and the set ends as it began. Other windows' membership never changes |
| `ServiceWorker.StuckAfterFailedQuery` | src/service-worker.js:74-90 | after a failed query, a later call for the same window is a no-op even when the query would now succeed |
| `ServiceWorker.OnMenuClicked` | src/service-worker.js:58-70 | the two store entries open their fixed URLs; the page entry starts a reload of the clicked tab's window exactly when a tab is given; any other id does nothing |
| `OptionsPage.ToInt` | src/options.js:223-225 | `toInt`: the text through parseInt, with NaN read as 0; read-back of field text in `ToIntOfFieldText`, digit-free text in `ToIntOfNonNumeric` |
| `OptionsPage.NumberFieldText` | src/options.js:193-201 | the text a number field starts with: empty for the default, the base-10 string otherwise; read back by `ToIntOfFieldText` |
| `OptionsPage.SavedSettings` | src/options.js:105-110 | the settings a save assembles: numbers through `toInt`, flags from the checkboxes; `FreshPageIsClean`, `CleanAfterSave` and `SaveThenLoad` state its properties |
| `OptionsPage.IsDirty` | src/options.js:130-136 | the condition that enables Save: some control differs from the in-memory options, numbers compared after `toInt`; `DirtyIffSaveChanges` shows it holds exactly when a save would change the options |
| `OptionsPage.ContextMenuCommand` | src/options.js:155-171 | `initContextMenus`: create the page entry when `show_page_context_menu_item` is true, remove it otherwise; its effect is stated by `MenuFollowsSetting` |
| `OptionsPage.ToIntOfFieldText` | src/options.js:193-201 | for every integer setting v, the rendered field (empty for 0) reads back through `toInt` as v |
| `OptionsPage.ToIntOfNonNumeric` | src/options.js:223-225 | text without a digit reads as 0, never NaN |
| `OptionsPage.DirtyIffSaveChanges` | src/options.js:130-136 | Save is enabled exactly when the settings a save would assemble differ from the in-memory options |
| `OptionsPage.FreshPageIsClean` | src/options.js:14-73 | the controls built from any settings are not dirty and save back to the same settings |
| `OptionsPage.CleanAfterSave` | src/options.js:126-149 | once the options have been set from the controls, the same controls are clean |
| `OptionsPage.SaveThenLoad` | src/options.js:104-112 | the record a save writes is loaded back as the settings the save assembled |
| `OptionsPage.MenuFollowsSetting` | src/options.js:155-171 | after the refresh the page entry exists exactly when `show_page_context_menu_item` is true, no other entry changes, and a second refresh changes nothing |
| `OptionsPage.CreatedItemStartsReload` | src/service-worker.js:66-67 | cross-reference, no new property: the entry the options page creates carries the id the service worker dispatches on, so by `OnMenuClicked`'s contract a click on it with a tab reloads that tab's window |
| `OptionsPage.Page.constructor` | src/options.js:90-91 | the page starts with Save disabled, no blinking and an empty status |
| `OptionsPage.Page.Init` | src/options.js:6-8 | the page loads the options, refreshes the menu from them, and builds controls that are not dirty |
| `OptionsPage.Page.SaveOptions` | src/options.js:104-112 | all five options are set from the controls before the write: numbers through `toInt`, flags from the checkboxes. The written record is those settings. The outcome is that of `WriteDone` |
| `OptionsPage.Page.WriteDone` | src/options.js:112-123 | on a write error the status reads "Error! " and the error text, and the menu is not refreshed; on success it reads "Options saved successfully." and the menu is refreshed from the saved settings |
| `OptionsPage.Page.CheckForChanges` | src/options.js:128-147 | Save is disabled and the blinking stopped exactly when the controls are clean |
| `OptionsPage.Page.OnSaveClicked` | src/options.js:126-149 | a click on Save saves, then checks: Save ends disabled even when the write fails |

## Left out

- DOM construction and styling are not modelled, because they are presentation only. This covers the option, label and break helpers, the advanced-section display toggle, the alternating class of the blinking button, and the timer that clears the status after 1500 ms.
- The browser calls are not reimplemented. The storage read and write, the tab query, tab reload and tab creation, and context-menu creation and removal become inputs, results or trace events.
- The startup menu registrations (src/service-worker.js:21-56) are not modelled. They are fixed calls whose errors are ignored.
- The toolbar-icon listener (src/service-worker.js:13-19) is not modelled separately. It calls the same procedure as `Worker.ReloadAllTabs`.
- Timers are not real: `sleep` is recorded as a `Sleep(ms)` event. The browser's handling of the timeout is not modelled: negative or fractional values are clamped or truncated, and since `setTimeout` takes a 32-bit signed delay, a delay of 2^31 ms or more wraps and fires at once.
- Numbers are integers plus NaN, and `Math.random()` is an exact real in [0, 1). Fractional and infinite stored numbers pass `isNumber` but are not modelled. So the model does not show that a stored 2.5 reads back from the page as 2 and opens the page dirty.
- JsBuiltins.ParseInt: returns 0 for "-0" and "-0x0", where parseInt returns -0, because the integers here have no negative zero. `ParseIntReadsDecimalRun` and `ParseIntReadsHexRun` inherit this. `toInt` is not affected, because `|| 0` turns -0 into 0.
- JsBuiltins.ParseIntOfToString: assumes exact integers. Doubles round above 2^53. `toString` switches to exponent form for magnitudes of 10^21 and above, so such values do not read back.
- OptionsPage.ToInt: reads the field through exact integers. In the browser, parseInt returns a double, so a field whose value exceeds 2^53 in magnitude may save a rounded number, and text past about 1.8e308 gives Infinity, which `|| 0` keeps. `SavedSettings` and the dirty check inherit this.
- ServiceWorker.Worker.ReloadAllTabs: needs at least one random fraction per tab. This stands in for `Math.random()`, which never runs out.
- Asynchronous interleaving is not modelled. A call is one atomic step. A second trigger during a running loop is modelled only by the window being in `reloadingSet`. A settings reload by another call during the loop's sleeps is not modelled.
- In `Page.OnSaveClicked`, the storage callback really runs after `checkForChanges`. The two touch different state, so the sequential order gives the same end state.
- `chrome.tabs.reload` is not awaited, so its rejections bypass the `try`. The model records the reload as issued.
- The storage read's callback is assumed to receive an items object. If the host passed none, destructuring would throw, and the load's promise would never resolve.
- The text after "Error! " is the host's error converted to a string, given as a parameter. In Chrome, `runtime.lastError` is a plain object, so the text would be "[object Object]".
- `isString` (src/options.lib.js:56-58) is never called, so it is not modelled.

=== FILE: js_builtins.dfy ===
/** The small part of the JavaScript runtime the extension relies on:
    the values the storage area hands back, Number.parseInt with no radix,
    and Number.prototype.toString(10) on integers. */
module JsBuiltins {

  datatype Option<+T> = None | Some(value: T)

  /** A JavaScript value as read back from extension storage. Numbers are
      integers plus NaN; `Undefined` is what destructuring a missing key gives. */
  datatype Value = Num(n: int) | NaN | Bool(b: bool) | Str(s: string) | Null | Undefined

  // ---------------------------------------------------------------------
  // Number.parseInt(string) — section 19.2.5 of ECMA-262 (2023 edition),
  // radix undefined. NaN is `None`; the result is the exact integer, so
  // "-0" reads as 0, not as the negative zero JavaScript returns.
  // ---------------------------------------------------------------------

  /** WhiteSpace or LineTerminator code points, which parseInt skips at the start. */
  predicate IsStrWhiteSpace(c: char) {
    var k := c as int;
    k == 0x09 || k == 0x0B || k == 0x0C || k == 0xFEFF        // TAB, VT, FF, ZWNBSP
    || k == 0x20 || k == 0xA0 || k == 0x1680                   // category Zs
    || (0x2000 <= k <= 0x200A) || k == 0x202F || k == 0x205F || k == 0x3000
    || k == 0x0A || k == 0x0D || k == 0x2028 || k == 0x2029    // LineTerminator
  }

  /** The value of `c` as a digit in any radix up to 36, or 36 when it is none. */
  function DigitValue(c: char): (d: nat)
    ensures d <= 36
    ensures d < 10 <==> '0' <= c <= '9'
  {
    if '0' <= c <= '9' then (c as int) - ('0' as int)
    else if 'a' <= c <= 'z' then (c as int) - ('a' as int) + 10
    else if 'A' <= c <= 'Z' then (c as int) - ('A' as int) + 10
    else 36
  }

  predicate IsRadixDigit(c: char, radix: nat) {
    DigitValue(c) < radix
  }

  /** The string with its leading white space removed. */
  function TrimStart(s: string): (t: string)
    ensures |t| <= |s| && t == s[|s| - |t|..]
    ensures t == [] || !IsStrWhiteSpace(t[0])
  {
    if s != [] && IsStrWhiteSpace(s[0]) then TrimStart(s[1..]) else s
  }

  /** The longest prefix of `s` made of radix-`radix` digits. */
  function DigitPrefix(s: string, radix: nat): (z: string)
    ensures |z| <= |s| && z == s[..|z|]
    ensures forall i :: 0 <= i < |z| ==> IsRadixDigit(z[i], radix)
    ensures |z| < |s| ==> !IsRadixDigit(s[|z|], radix)
  {
    if s != [] && IsRadixDigit(s[0], radix) then [s[0]] + DigitPrefix(s[1..], radix) else []
  }

  /** The integer the digit string `z` denotes in radix `radix`. */
  function DigitsValue(z: string, radix: nat): nat {
    if z == [] then 0
    else DigitsValue(z[..|z| - 1], radix) * radix + DigitValue(z[|z| - 1])
  }

  /** `Number.parseInt(s)`: skip white space, read an optional sign, then the
      magnitude. No digits at all gives NaN (`None`). */
  function ParseInt(s: string): Option<int> {
    ParseSigned(TrimStart(s))
  }

  /** Steps 4 to 17 of parseInt, on text that starts after the white space. */
  function ParseSigned(t: string): Option<int> {
    var sign := if t != [] && t[0] == '-' then -1 else 1;
    var u := if t != [] && (t[0] == '-' || t[0] == '+') then t[1..] else t;
    match ParseMagnitude(u)
    case None => None
    case Some(m) => Some(sign * m)
  }

  /** The magnitude after the sign: radix 16 after a "0x" or "0X" prefix,
      radix 10 otherwise, read up to the first non-digit. */
  function ParseMagnitude(u: string): Option<nat> {
    var hex := |u| >= 2 && u[0] == '0' && (u[1] == 'x' || u[1] == 'X');
    var radix := if hex then 16 else 10;
    var z := DigitPrefix(if hex then u[2..] else u, radix);
    if z == [] then None else Some(DigitsValue(z, radix))
  }

  // ---------------------------------------------------------------------
  // Number.prototype.toString(10) on an integer value.
  // ---------------------------------------------------------------------

  function DecimalDigit(d: nat): char
    requires d < 10
  {
    ('0' as int + d) as char
  }

  /** The decimal numeral of `n`, without leading zeros. */
  function NatToDecimal(n: nat): (s: string)
    ensures s != []
    ensures forall i :: 0 <= i < |s| ==> '0' <= s[i] <= '9'
    decreases n
  {
    if n < 10 then [DecimalDigit(n)] else NatToDecimal(n / 10) + [DecimalDigit(n % 10)]
  }

  /** `v.toString(10)`: a minus sign for negative values, then the decimal numeral. */
  function IntToString(v: int): (s: string)
    ensures s != [] && !IsStrWhiteSpace(s[0])
  {
    if v < 0 then "-" + NatToDecimal(-v) else NatToDecimal(v)
  }

  // ---------------------------------------------------------------------
  // parseInt reads back what toString(10) writes.
  // ---------------------------------------------------------------------

  lemma {:induction false} DigitsValueOfDecimal(n: nat)
    ensures DigitsValue(NatToDecimal(n), 10) == n
    decreases n
  {
    var s := NatToDecimal(n);
    if n >= 10 {
      DigitsValueOfDecimal(n / 10);
      assert s[..|s| - 1] == NatToDecimal(n / 10);
    }
  }

  predicate AllDecimal(s: string) {
    forall i :: 0 <= i < |s| ==> '0' <= s[i] <= '9'
  }

  /** For every integer, `parseInt(v.toString(10)) == v`. */
  lemma ParseIntOfToString(v: int)
    ensures ParseInt(IntToString(v)) == Some(v)
  {
    var m: nat := if v < 0 then -v else v;
    var u := NatToDecimal(m);
    var sign := if v < 0 then "-" else "";
    assert IntToString(v) == sign + u;
    DigitsValueOfDecimal(m);
    SignedDecimalRun(sign, u, "");
    assert u + "" == u;
  }

  // ---------------------------------------------------------------------
  // What parseInt reads, for all inputs of the shape
  // white space, optional sign, digits, then anything that is not a digit.
  // ---------------------------------------------------------------------

  predicate AllWhiteSpace(w: string) {
    forall i :: 0 <= i < |w| ==> IsStrWhiteSpace(w[i])
  }

  /** The optional sign parseInt reads: nothing, "-" or "+". */
  predicate IsSign(sign: string) {
    sign == "" || sign == "-" || sign == "+"
  }

  /** The value of magnitude `m` after `sign`. */
  function Signed(sign: string, m: nat): int {
    if sign == "-" then -(m as int) else m
  }

  /** Leading white space is skipped, whatever follows it. */
  lemma {:induction false} TrimStartOfWhiteSpace(w: string, t: string)
    requires AllWhiteSpace(w)
    requires t == [] || !IsStrWhiteSpace(t[0])
    ensures TrimStart(w + t) == t
  {
    if w == [] {
      assert w + t == t;
    } else {
      assert (w + t)[0] == w[0] && (w + t)[1..] == w[1..] + t;
      TrimStartOfWhiteSpace(w[1..], t);
    }
  }

  /** A run of digits followed by a non-digit (or the end) is read exactly. */
  lemma {:induction false} DigitPrefixOfRun(z: string, rest: string, radix: nat)
    requires forall i :: 0 <= i < |z| ==> IsRadixDigit(z[i], radix)
    requires rest == [] || !IsRadixDigit(rest[0], radix)
    ensures DigitPrefix(z + rest, radix) == z
  {
    if z == [] {
      assert z + rest == rest;
    } else {
      assert (z + rest)[0] == z[0] && (z + rest)[1..] == z[1..] + rest;
      DigitPrefixOfRun(z[1..], rest, radix);
    }
  }

  lemma AppendAssociative(a: string, b: string, c: string)
    ensures a + (b + c) == a + b + c
  {
  }

  /** The sign is read off and applied to the magnitude after it. */
  lemma SignedMagnitude(sign: string, u: string)
    requires IsSign(sign)
    requires u != [] && '0' <= u[0] <= '9'
    ensures ParseMagnitude(u) == None ==> ParseSigned(sign + u) == None
    ensures ParseMagnitude(u).Some? ==> ParseSigned(sign + u) == Some(Signed(sign, ParseMagnitude(u).value))
  {
    var t := sign + u;
    if sign == "" {
      assert t == u;
    } else {
      assert t[0] == sign[0] && t[1..] == u;
    }
  }

  /** White space before a sign and a digit is skipped. */
  lemma ParseIntAfterWhiteSpace(w: string, sign: string, u: string)
    requires AllWhiteSpace(w) && IsSign(sign)
    requires u != [] && '0' <= u[0] <= '9'
    ensures ParseInt(w + sign + u) == ParseSigned(sign + u)
  {
    assert w + sign + u == w + (sign + u);
    assert (sign + u)[0] == if sign == "" then u[0] else sign[0];
    TrimStartOfWhiteSpace(w, sign + u);
  }

  /** A decimal run is read up to the first non-digit, unless it is a lone
      "0" followed by "x" or "X", which starts a hexadecimal numeral. */
  lemma MagnitudeOfDecimalRun(z: string, rest: string)
    requires z != [] && AllDecimal(z)
    requires rest == [] || !('0' <= rest[0] <= '9')
    requires !(z == "0" && rest != [] && (rest[0] == 'x' || rest[0] == 'X'))
    ensures ParseMagnitude(z + rest) == Some(DigitsValue(z, 10))
  {
    var u := z + rest;
    assert u[0] == z[0];
    if |z| >= 2 {
      assert u[1] == z[1];
    } else if rest != [] {
      assert z == [z[0]] && u[1] == rest[0];
    }
    DigitPrefixOfRun(z, rest, 10);
  }

  /** "0x" or "0X" switches to radix 16, read up to the first non-hex character. */
  lemma MagnitudeOfHexRun(prefix: string, h: string, rest: string)
    requires prefix == "0x" || prefix == "0X"
    requires forall i :: 0 <= i < |h| ==> IsRadixDigit(h[i], 16)
    requires rest == [] || !IsRadixDigit(rest[0], 16)
    ensures h != [] ==> ParseMagnitude(prefix + (h + rest)) == Some(DigitsValue(h, 16))
    ensures h == [] ==> ParseMagnitude(prefix + (h + rest)) == None
  {
    var u := prefix + (h + rest);
    assert |u| >= 2 && u[0] == '0' && u[1] == prefix[1];
    assert u[2..] == h + rest;
    DigitPrefixOfRun(h, rest, 16);
  }

  /** After the white space, the sign is applied to the decimal run. */
  lemma SignedDecimalRun(sign: string, z: string, rest: string)
    requires IsSign(sign)
    requires z != [] && AllDecimal(z)
    requires rest == [] || !('0' <= rest[0] <= '9')
    requires !(z == "0" && rest != [] && (rest[0] == 'x' || rest[0] == 'X'))
    ensures ParseSigned(sign + (z + rest)) == Some(Signed(sign, DigitsValue(z, 10)))
  {
    MagnitudeOfDecimalRun(z, rest);
    SignedMagnitude(sign, z + rest);
  }

  /** parseInt skips the white space, reads the sign, and reads the decimal
      digits up to the first non-digit: `w + sign + z + rest` is the signed
      value of `z`, whatever `rest` holds. */
  lemma ParseIntReadsDecimalRun(w: string, sign: string, z: string, rest: string)
    requires AllWhiteSpace(w) && IsSign(sign)
    requires z != [] && AllDecimal(z)
    requires rest == [] || !('0' <= rest[0] <= '9')
    requires !(z == "0" && rest != [] && (rest[0] == 'x' || rest[0] == 'X'))
    ensures ParseInt(w + sign + z + rest) == Some(Signed(sign, DigitsValue(z, 10)))
  {
    AppendAssociative(w + sign, z, rest);
    ParseIntAfterWhiteSpace(w, sign, z + rest);
    SignedDecimalRun(sign, z, rest);
  }

  /** With no radix given, "0x" or "0X" after the sign switches parseInt to
      hexadecimal, read up to the first non-hex character; with no hex digit
      after the prefix the result is NaN. */
  lemma ParseIntReadsHexRun(w: string, sign: string, prefix: string, h: string, rest: string)
    requires AllWhiteSpace(w) && IsSign(sign)
    requires prefix == "0x" || prefix == "0X"
    requires forall i :: 0 <= i < |h| ==> IsRadixDigit(h[i], 16)
    requires rest == [] || !IsRadixDigit(rest[0], 16)
    ensures h != [] ==> ParseInt(w + sign + prefix + h + rest) == Some(Signed(sign, DigitsValue(h, 16)))
    ensures h == [] ==> ParseInt(w + sign + prefix + h + rest) == None
  {
    var u := prefix + (h + rest);
    AppendAssociative(w + sign, prefix, h + rest);
    AppendAssociative(w + sign + prefix, h, rest);
    assert u[0] == '0';
    ParseIntAfterWhiteSpace(w, sign, u);
    MagnitudeOfHexRun(prefix, h, rest);
    SignedMagnitude(sign, u);
  }

  predicate NoDecimal(s: string) {
    forall i :: 0 <= i < |s| ==> !('0' <= s[i] <= '9')
  }

  lemma {:induction false} TrimStartKeepsNoDecimal(s: string)
    requires NoDecimal(s)
    ensures NoDecimal(TrimStart(s))
  {
    if s != [] && IsStrWhiteSpace(s[0]) {
      TrimStartKeepsNoDecimal(s[1..]);
    }
  }

  /** Text that starts after the white space and holds no decimal digit has
      no magnitude after its sign. */
  lemma SignedOfNoDecimal(t: string)
    requires NoDecimal(t)
    ensures ParseSigned(t) == None
  {
    var u := if t != [] && (t[0] == '-' || t[0] == '+') then t[1..] else t;
    assert u == [] || !('0' <= u[0] <= '9');
    assert DigitPrefix(u, 10) == [];
  }

  /** Text without a decimal digit (empty, "abc", "-", "x") is NaN. */
  lemma ParseIntOfNoDigits(s: string)
    requires forall i :: 0 <= i < |s| ==> !('0' <= s[i] <= '9')
    ensures ParseInt(s) == None
  {
    TrimStartKeepsNoDecimal(s);
    SignedOfNoDecimal(TrimStart(s));
  }
}

=== FILE: options_lib.dfy ===
/** The extension's one settings record (src/options.lib.js): five typed
    fields with fixed defaults, the keys asked of storage, and the load that
    overwrites a field only with a stored value of that field's type. */
module OptionsLib {
  import opened JsBuiltins

  const DelayKey := "delay"
  const ShowPageContextMenuItemKey := "show_page_context_menu_item"
  const UseAdvancedOptionsKey := "use_advanced_options"
  const RangeStartKey := "advanced_delay_range_start"
  const RangeEndKey := "advanced_delay_range_end"

  /** The keys of the defaults object: the five setting names, in declaration order. */
  const OptionKeys: seq<string> :=
    [DelayKey, ShowPageContextMenuItemKey, UseAdvancedOptionsKey, RangeStartKey, RangeEndKey]

  /** A snapshot of the settings, each field at its declared type. */
  datatype Settings = Settings(
    delay: int,
    showPageContextMenuItem: bool,
    useAdvancedOptions: bool,
    advancedDelayRangeStart: int,
    advancedDelayRangeEnd: int)

  /** The values the module starts with, before any load. */
  const Defaults := Settings(0, true, false, 0, 0)

  /** A key-value record as the storage area holds it. */
  type Record = map<string, Value>

  /** Reading a key off a record; a missing key reads as `undefined`. */
  function Get(items: Record, key: string): Value {
    if key in items then items[key] else Undefined
  }

  /** `isNumber`: a value of type number that is not NaN. */
  predicate IsNumber(v: Value) {
    v.Num?
  }

  /** `isBoolean`: a value of type boolean. */
  predicate IsBoolean(v: Value) {
    v.Bool?
  }

  /** `chrome.storage.local.get(keys)` on a store: the entries under the asked keys. */
  function StorageGet(store: Record, keys: seq<string>): (items: Record)
    ensures forall k :: Get(items, k) == (if k in keys then Get(store, k) else Undefined)
  {
    map k | k in store && k in keys :: store[k]
  }

  /** What `chrome.storage.local.set(options)` writes for a snapshot. */
  function Stored(s: Settings): (r: Record)
    ensures r.Keys == set k | k in OptionKeys
  {
    map[DelayKey := Num(s.delay),
        ShowPageContextMenuItemKey := Bool(s.showPageContextMenuItem),
        UseAdvancedOptionsKey := Bool(s.useAdvancedOptions),
        RangeStartKey := Num(s.advancedDelayRangeStart),
        RangeEndKey := Num(s.advancedDelayRangeEnd)]
  }

  /** A field after the load: the stored value when it passes the field's type test. */
  function NumberOr(v: Value, current: int): int {
    if IsNumber(v) then v.n else current
  }

  function BooleanOr(v: Value, current: bool): bool {
    if IsBoolean(v) then v.b else current
  }

  /** The settings `loadOptions` leaves behind, from the settings before it and
      the items storage returned. */
  function Loaded(current: Settings, items: Record): Settings {
    Settings(
      NumberOr(Get(items, DelayKey), current.delay),
      BooleanOr(Get(items, ShowPageContextMenuItemKey), current.showPageContextMenuItem),
      BooleanOr(Get(items, UseAdvancedOptionsKey), current.useAdvancedOptions),
      NumberOr(Get(items, RangeStartKey), current.advancedDelayRangeStart),
      NumberOr(Get(items, RangeEndKey), current.advancedDelayRangeEnd))
  }

  // ---------------------------------------------------------------------
  // Properties of the load
  // ---------------------------------------------------------------------

  /** The keys asked of storage are five distinct names, one per field of the record. */
  lemma OptionKeysAreTheFields()
    ensures |OptionKeys| == 5
    ensures forall i, j :: 0 <= i < j < |OptionKeys| ==> OptionKeys[i] != OptionKeys[j]
    ensures (set k | k in OptionKeys) == Stored(Defaults).Keys
  {
  }

  /** A numeric field changes only to a stored non-NaN number, and a boolean
      field only to a stored boolean; every other stored value (missing, NaN,
      a string, a value of the other type) leaves the field as it was. */
  lemma LoadReplacesOnlyWellTyped(c: Settings, items: Record)
    ensures Loaded(c, items).delay != c.delay
      ==> Get(items, DelayKey) == Num(Loaded(c, items).delay)
    ensures Loaded(c, items).showPageContextMenuItem != c.showPageContextMenuItem
      ==> Get(items, ShowPageContextMenuItemKey) == Bool(Loaded(c, items).showPageContextMenuItem)
    ensures Loaded(c, items).useAdvancedOptions != c.useAdvancedOptions
      ==> Get(items, UseAdvancedOptionsKey) == Bool(Loaded(c, items).useAdvancedOptions)
    ensures Loaded(c, items).advancedDelayRangeStart != c.advancedDelayRangeStart
      ==> Get(items, RangeStartKey) == Num(Loaded(c, items).advancedDelayRangeStart)
    ensures Loaded(c, items).advancedDelayRangeEnd != c.advancedDelayRangeEnd
      ==> Get(items, RangeEndKey) == Num(Loaded(c, items).advancedDelayRangeEnd)
  {
  }

  /** A stored value of the field's type is always taken. */
  lemma LoadTakesWellTyped(c: Settings, items: Record)
    ensures Get(items, DelayKey).Num?
      ==> Loaded(c, items).delay == Get(items, DelayKey).n
    ensures Get(items, ShowPageContextMenuItemKey).Bool?
      ==> Loaded(c, items).showPageContextMenuItem == Get(items, ShowPageContextMenuItemKey).b
    ensures Get(items, UseAdvancedOptionsKey).Bool?
      ==> Loaded(c, items).useAdvancedOptions == Get(items, UseAdvancedOptionsKey).b
    ensures Get(items, RangeStartKey).Num?
      ==> Loaded(c, items).advancedDelayRangeStart == Get(items, RangeStartKey).n
    ensures Get(items, RangeEndKey).Num?
      ==> Loaded(c, items).advancedDelayRangeEnd == Get(items, RangeEndKey).n
  {
  }

  /** Fields are decided independently: each field of the result depends only
      on that field before and on the value stored under that field's key. */
  lemma LoadFieldsIndependent(c1: Settings, i1: Record, c2: Settings, i2: Record)
    ensures c1.delay == c2.delay && Get(i1, DelayKey) == Get(i2, DelayKey)
      ==> Loaded(c1, i1).delay == Loaded(c2, i2).delay
    ensures c1.showPageContextMenuItem == c2.showPageContextMenuItem
         && Get(i1, ShowPageContextMenuItemKey) == Get(i2, ShowPageContextMenuItemKey)
      ==> Loaded(c1, i1).showPageContextMenuItem == Loaded(c2, i2).showPageContextMenuItem
    ensures c1.useAdvancedOptions == c2.useAdvancedOptions
         && Get(i1, UseAdvancedOptionsKey) == Get(i2, UseAdvancedOptionsKey)
      ==> Loaded(c1, i1).useAdvancedOptions == Loaded(c2, i2).useAdvancedOptions
    ensures c1.advancedDelayRangeStart == c2.advancedDelayRangeStart
         && Get(i1, RangeStartKey) == Get(i2, RangeStartKey)
      ==> Loaded(c1, i1).advancedDelayRangeStart == Loaded(c2, i2).advancedDelayRangeStart
    ensures c1.advancedDelayRangeEnd == c2.advancedDelayRangeEnd
         && Get(i1, RangeEndKey) == Get(i2, RangeEndKey)
      ==> Loaded(c1, i1).advancedDelayRangeEnd == Loaded(c2, i2).advancedDelayRangeEnd
  {
  }

  /** Stored keys outside the five are never looked at: loading the whole store
      gives what loading only the asked keys gives. */
  lemma LoadIgnoresOtherKeys(current: Settings, store: Record)
    ensures Loaded(current, StorageGet(store, OptionKeys)) == Loaded(current, store)
  {
    var items := StorageGet(store, OptionKeys);
    assert Get(items, DelayKey) == Get(store, DelayKey);
    assert Get(items, ShowPageContextMenuItemKey) == Get(store, ShowPageContextMenuItemKey);
    assert Get(items, UseAdvancedOptionsKey) == Get(store, UseAdvancedOptionsKey);
    assert Get(items, RangeStartKey) == Get(store, RangeStartKey);
    assert Get(items, RangeEndKey) == Get(store, RangeEndKey);
  }

  /** Loading the same stored record twice gives what loading it once gives. */
  lemma LoadIdempotent(current: Settings, items: Record)
    ensures Loaded(Loaded(current, items), items) == Loaded(current, items)
  {
  }

  /** A record written by a save is read back exactly, whatever was in memory. */
  lemma LoadOfStored(current: Settings, s: Settings)
    ensures Loaded(current, Stored(s)) == s
  {
  }

  /** An empty store leaves the settings as they were, so a first load with
      nothing saved yields the defaults. */
  lemma LoadOfEmpty(current: Settings)
    ensures Loaded(current, map[]) == current
  {
  }

  // ---------------------------------------------------------------------
  // The module-level `options` object
  // ---------------------------------------------------------------------

  /** The shared, dynamically typed `options` object. Its fields may in
      principle hold any JavaScript value; `Valid` says each holds a value of
      its declared type, which every assignment in the code keeps. */
  class OptionsObject {
    var delay: Value
    var showPageContextMenuItem: Value
    var useAdvancedOptions: Value
    var advancedDelayRangeStart: Value
    var advancedDelayRangeEnd: Value

    predicate Valid()
      reads this
    {
      IsNumber(delay) && IsBoolean(showPageContextMenuItem) && IsBoolean(useAdvancedOptions)
      && IsNumber(advancedDelayRangeStart) && IsNumber(advancedDelayRangeEnd)
    }

    /** The typed snapshot of the object. */
    function Current(): (s: Settings)
      requires Valid()
      reads this
    {
      Settings(delay.n, showPageContextMenuItem.b, useAdvancedOptions.b,
               advancedDelayRangeStart.n, advancedDelayRangeEnd.n)
    }

    /** The object literal at module load. */
    constructor ()
      ensures Valid() && Current() == Defaults
    {
      delay := Num(0);
      showPageContextMenuItem := Bool(true);
      useAdvancedOptions := Bool(false);
      advancedDelayRangeStart := Num(0);
      advancedDelayRangeEnd := Num(0);
    }

    /** `loadOptions()`: ask storage for the five keys and overwrite each field
        whose stored value passes its type test. `lastError` is whatever storage
        reports on its error channel; it is read and ignored, and the load
        always completes. */
    method LoadOptions(store: Record, lastError: Option<string>)
      requires Valid()
      modifies this
      ensures Valid()
      ensures Current() == Loaded(old(Current()), store)
    {
      var items := StorageGet(store, OptionKeys);
      var d := Get(items, DelayKey);
      var show := Get(items, ShowPageContextMenuItemKey);
      var useAdvanced := Get(items, UseAdvancedOptionsKey);
      var rangeEnd := Get(items, RangeEndKey);
      var rangeStart := Get(items, RangeStartKey);
      // Only the five asked keys come back, each as it is stored.
      assert d == Get(store, DelayKey) && show == Get(store, ShowPageContextMenuItemKey);
      assert useAdvanced == Get(store, UseAdvancedOptionsKey);
      assert rangeEnd == Get(store, RangeEndKey) && rangeStart == Get(store, RangeStartKey);

      if IsNumber(d) { delay := d; }
      if IsBoolean(show) { showPageContextMenuItem := show; }
      if IsBoolean(useAdvanced) { useAdvancedOptions := useAdvanced; }
      if IsNumber(rangeEnd) { advancedDelayRangeEnd := rangeEnd; }
      if IsNumber(rangeStart) { advancedDelayRangeStart := rangeStart; }
    }
  }
}

=== FILE: options_page.dfy ===
/** The options page (src/options.js) without its DOM: how number fields are
    rendered and read back, when Save is enabled, what a save writes and
    reports, and which page context-menu entry the settings call for. */
module OptionsPage {
  import opened JsBuiltins
  import opened OptionsLib
  import ServiceWorker

  // ---------------------------------------------------------------------
  // Number fields
  // ---------------------------------------------------------------------

  /** `toInt(input)`: the field text through parseInt, with the falsy results
      replaced by 0 (NaN, and -0, which the integers here do not have). */
  function ToInt(text: string): int {
    match ParseInt(text)
    case None => 0
    case Some(v) => v
  }

  /** The text `newNumberOptionInput(value, defaultValue)` puts in a field:
      nothing when the value is the default, its base-10 string otherwise. */
  function NumberFieldText(value: int, defaultValue: int): string {
    if value != defaultValue then IntToString(value) else ""
  }

  /** A number field rendered with the default 0 reads back as the value it
      was rendered from: the empty text of 0 reads as 0, any other integer
      reads back through its decimal string. */
  lemma ToIntOfFieldText(v: int)
    ensures ToInt(NumberFieldText(v, 0)) == v
  {
    if v != 0 {
      ParseIntOfToString(v);
    } else {
      ParseIntOfNoDigits("");
    }
  }

  /** Text with no digit in it (empty, "abc", "-") reads as 0, never NaN. */
  lemma ToIntOfNonNumeric(text: string)
    requires forall i :: 0 <= i < |text| ==> !('0' <= text[i] <= '9')
    ensures ToInt(text) == 0
  {
    ParseIntOfNoDigits(text);
  }

  // ---------------------------------------------------------------------
  // The form and the dirty check
  // ---------------------------------------------------------------------

  /** What the five controls hold: the text of the three number fields and the
      state of the two checkboxes. */
  datatype Controls = Controls(
    delayText: string,
    showPageContextMenuItemChecked: bool,
    useAdvancedOptionsChecked: bool,
    rangeStartText: string,
    rangeEndText: string)

  /** The controls as `init` builds them from the settings; every number
      field has the default 0. */
  function InitialControls(s: Settings): Controls {
    Controls(
      NumberFieldText(s.delay, 0),
      s.showPageContextMenuItem,
      s.useAdvancedOptions,
      NumberFieldText(s.advancedDelayRangeStart, 0),
      NumberFieldText(s.advancedDelayRangeEnd, 0))
  }

  /** The settings `saveOptions` assembles from the controls: numbers through
      `toInt`, flags from the checkboxes. */
  function SavedSettings(c: Controls): Settings {
    Settings(
      ToInt(c.delayText),
      c.showPageContextMenuItemChecked,
      c.useAdvancedOptionsChecked,
      ToInt(c.rangeStartText),
      ToInt(c.rangeEndText))
  }

  /** The condition of `checkForChanges` that enables Save: some control
      differs from the in-memory options, numbers compared after `toInt`. */
  predicate IsDirty(s: Settings, c: Controls) {
    s.delay != ToInt(c.delayText)
    || s.showPageContextMenuItem != c.showPageContextMenuItemChecked
    || s.useAdvancedOptions != c.useAdvancedOptionsChecked
    || s.advancedDelayRangeStart != ToInt(c.rangeStartText)
    || s.advancedDelayRangeEnd != ToInt(c.rangeEndText)
  }

  /** Save is enabled exactly when saving would change the in-memory options. */
  lemma DirtyIffSaveChanges(s: Settings, c: Controls)
    ensures IsDirty(s, c) <==> SavedSettings(c) != s
  {
  }

  /** A freshly opened page is not dirty: each field reads back as the setting
      it was rendered from. */
  lemma FreshPageIsClean(s: Settings)
    ensures !IsDirty(s, InitialControls(s))
    ensures SavedSettings(InitialControls(s)) == s
  {
    ToIntOfFieldText(s.delay);
    ToIntOfFieldText(s.advancedDelayRangeStart);
    ToIntOfFieldText(s.advancedDelayRangeEnd);
  }

  /** After the options are set from the controls, the same controls are clean. */
  lemma CleanAfterSave(c: Controls)
    ensures !IsDirty(SavedSettings(c), c)
  {
  }

  /** What a save writes is read back unchanged by the next load. */
  lemma SaveThenLoad(current: Settings, c: Controls)
    ensures Loaded(current, Stored(SavedSettings(c))) == SavedSettings(c)
  {
    LoadOfStored(current, SavedSettings(c));
  }

  // ---------------------------------------------------------------------
  // The page context-menu entry
  // ---------------------------------------------------------------------

  /** The call `initContextMenus` makes for the page entry. */
  datatype MenuCommand = CreatePageItem | RemovePageItem

  const PageItemId := ServiceWorker.ReloadAllTabsInWindowId

  /** `initContextMenus`: create the page entry when
      `show_page_context_menu_item` is true, remove it otherwise. */
  function ContextMenuCommand(s: Settings): MenuCommand {
    if s.showPageContextMenuItem == true then CreatePageItem else RemovePageItem
  }

  /** The browser's menu entries after a command. Creating an entry that
      exists, or removing one that does not, fails, and the failure is ignored. */
  function ApplyMenuCommand(menus: set<string>, cmd: MenuCommand): set<string> {
    match cmd
    case CreatePageItem => menus + {PageItemId}
    case RemovePageItem => menus - {PageItemId}
  }

  /** Whatever entries exist before, after the refresh the page entry exists
      exactly when the setting asks for it, no other entry changes, and
      refreshing again changes nothing. */
  lemma MenuFollowsSetting(menus: set<string>, s: Settings)
    ensures PageItemId in ApplyMenuCommand(menus, ContextMenuCommand(s)) <==> s.showPageContextMenuItem
    ensures ApplyMenuCommand(menus, ContextMenuCommand(s)) - {PageItemId} == menus - {PageItemId}
    ensures ApplyMenuCommand(ApplyMenuCommand(menus, ContextMenuCommand(s)), ContextMenuCommand(s))
         == ApplyMenuCommand(menus, ContextMenuCommand(s))
  {
  }

  /** A click on the page entry the refresh creates starts a reload of the
      clicked tab's window. */
  lemma CreatedItemStartsReload(tab: ServiceWorker.Tab)
    ensures ServiceWorker.OnMenuClicked(PageItemId, Some(tab)) == ServiceWorker.StartReload(tab.windowId)
  {
  }

  // ---------------------------------------------------------------------
  // The page
  // ---------------------------------------------------------------------

  const SavedMessage := "Options saved successfully."

  /** The status after a failed write; `err` is the error as the host turns it into text. */
  function ErrorMessage(err: string): string {
    "Error! " + err
  }

  /** The page's own state: whether Save is disabled, whether the blinking
      interval is running, and the status text. */
  class Page {
    var saveDisabled: bool
    var blinking: bool
    var status: string

    /** The page before `init`: Save disabled, no interval, empty status. */
    constructor ()
      ensures saveDisabled && !blinking && status == ""
    {
      saveDisabled, blinking, status := true, false, "";
    }

    /** `init`: load the options, refresh the context menu, and build the
        controls from the loaded options. */
    method Init(opts: OptionsObject, store: Record, lastError: Option<string>)
      returns (controls: Controls, menu: MenuCommand)
      requires opts.Valid()
      modifies opts
      ensures opts.Valid() && opts.Current() == Loaded(old(opts.Current()), store)
      ensures menu == ContextMenuCommand(opts.Current())
      ensures controls == InitialControls(opts.Current())
      ensures !IsDirty(opts.Current(), controls)
    {
      opts.LoadOptions(store, lastError);
      menu := ContextMenuCommand(opts.Current());
      controls := InitialControls(opts.Current());
      FreshPageIsClean(opts.Current());
    }

    /** `saveOptions`: set all five options from the controls, write them,
        then report. On a write error the status shows the error and the
        context menu is left alone; on success the status says so and the
        menu is refreshed. `writeError` is the host's error, if any. */
    method SaveOptions(opts: OptionsObject, c: Controls, writeError: Option<string>)
      returns (written: Record, menu: Option<MenuCommand>)
      requires opts.Valid()
      modifies this, opts
      ensures opts.Valid() && opts.Current() == SavedSettings(c)
      ensures written == Stored(SavedSettings(c))
      ensures writeError.Some? ==> status == ErrorMessage(writeError.value) && menu == None
      ensures writeError.None? ==> status == SavedMessage && menu == Some(ContextMenuCommand(SavedSettings(c)))
      ensures saveDisabled == old(saveDisabled) && blinking == old(blinking)
    {
      var s := SavedSettings(c);
      opts.delay := Num(s.delay);
      opts.showPageContextMenuItem := Bool(s.showPageContextMenuItem);
      opts.useAdvancedOptions := Bool(s.useAdvancedOptions);
      opts.advancedDelayRangeStart := Num(s.advancedDelayRangeStart);
      opts.advancedDelayRangeEnd := Num(s.advancedDelayRangeEnd);

      // `chrome.storage.local.set(options)`: the object's five entries.
      written := Stored(opts.Current());

      menu := WriteDone(opts.Current(), writeError);
    }

    /** The callback of the storage write: show the error and leave the
        context menu alone, or show success and refresh the menu from the
        options as they now are. */
    method WriteDone(s: Settings, writeError: Option<string>) returns (menu: Option<MenuCommand>)
      modifies this
      ensures writeError.Some? ==> status == ErrorMessage(writeError.value) && menu == None
      ensures writeError.None? ==> status == SavedMessage && menu == Some(ContextMenuCommand(s))
      ensures saveDisabled == old(saveDisabled) && blinking == old(blinking)
    {
      if writeError.Some? {
        status := ErrorMessage(writeError.value);
        menu := None;
      } else {
        status := SavedMessage;
        menu := Some(ContextMenuCommand(s));
      }
    }

    /** `checkForChanges`: stop the blinking, then enable Save and start
        blinking when the controls differ from the options, or disable it. */
    method CheckForChanges(opts: OptionsObject, c: Controls)
      requires opts.Valid()
      modifies this
      ensures saveDisabled == !IsDirty(opts.Current(), c)
      ensures blinking == IsDirty(opts.Current(), c)
      ensures status == old(status)
    {
      blinking := false;
      if IsDirty(opts.Current(), c) {
        saveDisabled := false;
        blinking := true;
      } else {
        saveDisabled := true;
      }
    }

    /** A click on Save runs its two listeners in the order they were added:
        `saveOptions`, then `checkForChanges`. The options already hold the
        controls' values when the check runs, so Save ends disabled whether or
        not the write succeeded. */
    method OnSaveClicked(opts: OptionsObject, c: Controls, writeError: Option<string>)
      returns (written: Record, menu: Option<MenuCommand>)
      requires opts.Valid()
      modifies this, opts
      ensures opts.Valid() && opts.Current() == SavedSettings(c)
      ensures written == Stored(SavedSettings(c))
      ensures saveDisabled && !blinking
      ensures writeError.Some? ==> status == ErrorMessage(writeError.value) && menu == None
      ensures writeError.None? ==> status == SavedMessage && menu == Some(ContextMenuCommand(SavedSettings(c)))
    {
      written, menu := SaveOptions(opts, c, writeError);
      CheckForChanges(opts, c);
      CleanAfterSave(c);
    }
  }
}

=== FILE: service_worker.dfy ===
/** The background half of the extension (src/service-worker.js): the
    reload-all-tabs procedure with its per-window guard, the delay it sleeps
    after each tab, and the dispatch of context-menu clicks. Calls into the
    browser become inputs (the tab list the query returned, the random
    fractions) and outputs (a trace of reloads and sleeps). */
module ServiceWorker {
  import opened JsBuiltins
  import opened OptionsLib

  /** What the loop asks of the browser, in order. */
  datatype Event = Reload(tabId: int) | Sleep(ms: real)

  /** The answer of `chrome.tabs.query`: the window's tabs (each with an id or
      without one) in the browser's order, or a rejection. */
  datatype TabQuery = Tabs(tabs: seq<Option<int>>) | QueryFailed

  /** How a call of `reloadAllTabs` ends. */
  datatype Outcome =
    | AlreadyReloading  // the guard held the window: nothing was done
    | Completed         // the loop ran over every tab and the guard was released
    | ErrorLogged       // an error escaped the loop and was logged

  // ---------------------------------------------------------------------
  // Delays
  // ---------------------------------------------------------------------

  /** `pickBetween(min, max)` with `Math.random()` given as `r`: the delay is
      `min + r * max`. For `0 <= r < 1` it lies in `[min, min + max)` when
      `max` is positive (PickBetweenBounds), so `max` acts as the width of the
      range, not its end. */
  function PickBetween(min: int, max: int, r: real): real {
    min as real + r * max as real
  }

  lemma PickBetweenBounds(min: int, max: int, r: real)
    requires 0.0 <= r < 1.0
    ensures max > 0 ==> min as real <= PickBetween(min, max, r) < (min + max) as real
    ensures max == 0 ==> PickBetween(min, max, r) == min as real
    ensures max < 0 ==> (min + max) as real < PickBetween(min, max, r) <= min as real
  {
    var m := max as real;
    assert (1.0 - r) * m == m - r * m;
    if max > 0 {
      assert 0.0 <= r * m;
      assert 0.0 < (1.0 - r) * m;
    } else if max < 0 {
      assert r * m <= 0.0;
      assert (1.0 - r) * m < 0.0;
    }
  }

  /** The length of the sleep after a tab: the advanced range when
      `use_advanced_options` is `true`, the fixed `delay` otherwise. */
  function SleepDelay(s: Settings, r: real): real {
    if s.useAdvancedOptions then PickBetween(s.advancedDelayRangeStart, s.advancedDelayRangeEnd, r)
    else s.delay as real
  }

  /** Every sleep is the fixed delay when advanced mode is off, and lies in
      `[start, start + end)` when it is on and the end is positive. */
  lemma SleepDelayBounds(s: Settings, r: real)
    requires 0.0 <= r < 1.0
    ensures !s.useAdvancedOptions ==> SleepDelay(s, r) == s.delay as real
    ensures s.useAdvancedOptions && s.advancedDelayRangeEnd > 0 ==>
      s.advancedDelayRangeStart as real <= SleepDelay(s, r)
      < (s.advancedDelayRangeStart + s.advancedDelayRangeEnd) as real
  {
    PickBetweenBounds(s.advancedDelayRangeStart, s.advancedDelayRangeEnd, r);
  }

  /** The advanced delay can exceed the end of the range the options page
      shows as `[start, end]`: with start 100, end 150 and a draw of 0.9 it is 235. */
  lemma PickBetweenExceedsRangeEnd()
    ensures PickBetween(100, 150, 9.0 / 10.0) == 235.0
    ensures PickBetween(100, 150, 9.0 / 10.0) > 150.0
  {
  }

  // ---------------------------------------------------------------------
  // The trace of one pass over the tabs
  // ---------------------------------------------------------------------

  /** `reloadTab(tab)`: a reload when the tab has an id, nothing otherwise. */
  function ReloadTab(tab: Option<int>): seq<Event> {
    if tab.Some? then [Reload(tab.value)] else []
  }

  /** The events of the loop over `tabs`: for each tab its reload (if it has
      an id) followed by one sleep, the i-th sleep drawn with `randoms[i]`. */
  function LoopTrace(tabs: seq<Option<int>>, s: Settings, randoms: seq<real>): seq<Event>
    requires |randoms| >= |tabs|
    decreases |tabs|
  {
    if tabs == [] then []
    else
      var n := |tabs| - 1;
      LoopTrace(tabs[..n], s, randoms) + ReloadTab(tabs[n]) + [Sleep(SleepDelay(s, randoms[n]))]
  }

  /** The ids of the tabs that have one, in order. */
  function IdsOf(tabs: seq<Option<int>>): seq<int> {
    if tabs == [] then []
    else IdsOf(tabs[..|tabs| - 1]) + (if tabs[|tabs| - 1].Some? then [tabs[|tabs| - 1].value] else [])
  }

  /** The tab ids reloaded in a trace, in order. */
  function ReloadsIn(trace: seq<Event>): seq<int> {
    if trace == [] then []
    else ReloadsIn(trace[..|trace| - 1]) + (if trace[|trace| - 1].Reload? then [trace[|trace| - 1].tabId] else [])
  }

  /** The sleeps in a trace, in order. */
  function SleepsIn(trace: seq<Event>): seq<real> {
    if trace == [] then []
    else SleepsIn(trace[..|trace| - 1]) + (if trace[|trace| - 1].Sleep? then [trace[|trace| - 1].ms] else [])
  }

  lemma {:induction false} ReloadsInAppend(a: seq<Event>, b: seq<Event>)
    ensures ReloadsIn(a + b) == ReloadsIn(a) + ReloadsIn(b)
    decreases |b|
  {
    if b == [] {
      assert a + b == a;
    } else {
      var n := |b| - 1;
      assert (a + b)[..|a + b| - 1] == a + b[..n];
      assert (a + b)[|a + b| - 1] == b[n];
      ReloadsInAppend(a, b[..n]);
    }
  }

  lemma {:induction false} SleepsInAppend(a: seq<Event>, b: seq<Event>)
    ensures SleepsIn(a + b) == SleepsIn(a) + SleepsIn(b)
    decreases |b|
  {
    if b == [] {
      assert a + b == a;
    } else {
      var n := |b| - 1;
      assert (a + b)[..|a + b| - 1] == a + b[..n];
      assert (a + b)[|a + b| - 1] == b[n];
      SleepsInAppend(a, b[..n]);
    }
  }

  /** Each tab with an id is reloaded exactly once, in the order the query
      returned the tabs; a tab without an id is not reloaded. */
  lemma {:induction false} LoopReloadsEachTabInOrder(tabs: seq<Option<int>>, s: Settings, randoms: seq<real>)
    requires |randoms| >= |tabs|
    ensures ReloadsIn(LoopTrace(tabs, s, randoms)) == IdsOf(tabs)
    decreases |tabs|
  {
    if tabs != [] {
      var n := |tabs| - 1;
      var sleep := [Sleep(SleepDelay(s, randoms[n]))];
      LoopReloadsEachTabInOrder(tabs[..n], s, randoms);
      ReloadsInAppend(LoopTrace(tabs[..n], s, randoms) + ReloadTab(tabs[n]), sleep);
      ReloadsInAppend(LoopTrace(tabs[..n], s, randoms), ReloadTab(tabs[n]));
      assert ReloadsIn(sleep) == [];
      if tabs[n].Some? {
        assert ReloadsIn([Reload(tabs[n].value)]) == [tabs[n].value];
      }
    }
  }

  /** Exactly one sleep follows each tab, id-less tabs and the last tab
      included, and the i-th sleep is the delay drawn with the i-th fraction. */
  lemma {:induction false} LoopSleepsOncePerTab(tabs: seq<Option<int>>, s: Settings, randoms: seq<real>)
    requires |randoms| >= |tabs|
    ensures |SleepsIn(LoopTrace(tabs, s, randoms))| == |tabs|
    ensures forall i :: 0 <= i < |tabs| ==> SleepsIn(LoopTrace(tabs, s, randoms))[i] == SleepDelay(s, randoms[i])
    decreases |tabs|
  {
    if tabs != [] {
      var n := |tabs| - 1;
      var sleep := [Sleep(SleepDelay(s, randoms[n]))];
      LoopSleepsOncePerTab(tabs[..n], s, randoms);
      SleepsInAppend(LoopTrace(tabs[..n], s, randoms) + ReloadTab(tabs[n]), sleep);
      SleepsInAppend(LoopTrace(tabs[..n], s, randoms), ReloadTab(tabs[n]));
      assert SleepsIn(sleep) == [SleepDelay(s, randoms[n])];
      if tabs[n].Some? {
        assert SleepsIn([Reload(tabs[n].value)]) == [];
      }
    }
  }

  /** The loop's last event is the sleep after the last tab. */
  lemma LoopEndsWithSleep(tabs: seq<Option<int>>, s: Settings, randoms: seq<real>)
    requires |randoms| >= |tabs| && tabs != []
    ensures var t := LoopTrace(tabs, s, randoms);
      t != [] && t[|t| - 1] == Sleep(SleepDelay(s, randoms[|tabs| - 1]))
  {
  }

  /** One more tab adds its reload and its sleep at the end of the trace. */
  lemma LoopTraceStep(tabs: seq<Option<int>>, s: Settings, randoms: seq<real>, i: nat)
    requires |randoms| >= |tabs| && i < |tabs|
    ensures LoopTrace(tabs[..i + 1], s, randoms)
         == LoopTrace(tabs[..i], s, randoms) + ReloadTab(tabs[i]) + [Sleep(SleepDelay(s, randoms[i]))]
  {
    var p := tabs[..i + 1];
    assert p[..i] == tabs[..i] && p[i] == tabs[i];
  }

  /** The trace is built tab by tab: the events of the tabs before `i`, then
      tab `i`'s reload and its sleep, are a prefix of the whole trace. So the
      i-th sleep comes after the i-th tab's reload and before the next tab's. */
  lemma {:induction false} LoopTraceTabByTab(tabs: seq<Option<int>>, s: Settings, randoms: seq<real>, i: nat)
    requires |randoms| >= |tabs| && i < |tabs|
    ensures LoopTrace(tabs[..i], s, randoms) + ReloadTab(tabs[i]) + [Sleep(SleepDelay(s, randoms[i]))]
         <= LoopTrace(tabs, s, randoms)
    decreases |tabs| - i
  {
    LoopTraceStep(tabs, s, randoms, i);
    if i + 1 == |tabs| {
      assert tabs[..i + 1] == tabs;
    } else {
      LoopTraceTabByTab(tabs, s, randoms, i + 1);
      LoopTraceStep(tabs, s, randoms, i + 1);
    }
  }

  /** Three tabs with ids 1, 2, 3 and a delay of 0: three reloads in order,
      each followed by a zero-length sleep. */
  lemma ThreeTabsExample(randoms: seq<real>)
    requires |randoms| >= 3
    ensures LoopTrace([Some(1), Some(2), Some(3)], Defaults, randoms)
         == [Reload(1), Sleep(0.0), Reload(2), Sleep(0.0), Reload(3), Sleep(0.0)]
  {
    var tabs: seq<Option<int>> := [Some(1), Some(2), Some(3)];
    assert tabs[..2][..1][..0] == [];
    assert tabs[..2][..1] == [Some(1)];
    assert tabs[..2] == [Some(1), Some(2)];
    assert LoopTrace(tabs[..2][..1], Defaults, randoms) == [Reload(1), Sleep(0.0)];
    assert LoopTrace(tabs[..2], Defaults, randoms) == [Reload(1), Sleep(0.0), Reload(2), Sleep(0.0)];
  }

  /** The `for` loop of `reloadAllTabs` over the queried tabs: reload the
      tab, then sleep the delay the settings give. */
  method ReloadLoop(tabs: seq<Option<int>>, s: Settings, randoms: seq<real>) returns (trace: seq<Event>)
    requires |randoms| >= |tabs|
    ensures trace == LoopTrace(tabs, s, randoms)
  {
    trace := [];
    for i := 0 to |tabs|
      invariant trace == LoopTrace(tabs[..i], s, randoms)
    {
      assert tabs[..i + 1][..i] == tabs[..i];
      var tab := tabs[i];
      if tab.Some? {
        trace := trace + [Reload(tab.value)];
      }
      // The same choice `SleepDelay` specifies, written as the loop body writes it.
      var d: real;
      if s.useAdvancedOptions == true {
        d := PickBetween(s.advancedDelayRangeStart, s.advancedDelayRangeEnd, randoms[i]);
      } else {
        d := s.delay as real;
      }
      trace := trace + [Sleep(d)];
    }
    assert tabs[..|tabs|] == tabs;
  }

  // ---------------------------------------------------------------------
  // The per-window guard
  // ---------------------------------------------------------------------

  /** The service worker's module-level state: the windows with a reload in progress. */
  class Worker {
    var reloadingSet: set<int>

    constructor ()
      ensures reloadingSet == {}
    {
      reloadingSet := {};
    }

    /** `reloadAllTabs(currentTab)` for the tab's window. It refreshes the
        settings, then returns at once if the window is in `reloadingSet`.
        Otherwise it adds the window, runs the loop over the queried tabs with
        the fresh settings and removes the window again. A failing query throws
        past the removal: the error is logged and the window stays in the set. */
    method ReloadAllTabs(windowId: int, opts: OptionsObject, store: Record, lastError: Option<string>,
                         query: TabQuery, randoms: seq<real>)
      returns (outcome: Outcome, trace: seq<Event>)
      requires opts.Valid()
      requires query.Tabs? ==> |randoms| >= |query.tabs|
      modifies this, opts
      ensures opts.Valid() && opts.Current() == Loaded(old(opts.Current()), store)
      ensures windowId in old(reloadingSet) ==>
        outcome == AlreadyReloading && trace == [] && reloadingSet == old(reloadingSet)
      ensures windowId !in old(reloadingSet) && query.QueryFailed? ==>
        outcome == ErrorLogged && trace == [] && reloadingSet == old(reloadingSet) + {windowId}
      ensures windowId !in old(reloadingSet) && query.Tabs? ==>
        && outcome == Completed
        && trace == LoopTrace(query.tabs, opts.Current(), randoms)
        && reloadingSet == old(reloadingSet)
      ensures reloadingSet - {windowId} == old(reloadingSet) - {windowId}
    {
      opts.LoadOptions(store, lastError);
      if windowId in reloadingSet {
        return AlreadyReloading, [];
      }
      reloadingSet := reloadingSet + {windowId};
      match query
      case QueryFailed =>
        outcome, trace := ErrorLogged, [];
      case Tabs(tabs) =>
        trace := ReloadLoop(tabs, opts.Current(), randoms);
        reloadingSet := reloadingSet - {windowId};
        outcome := Completed;
    }
  }

  /** Once a query for a window has failed, every later call for that window
      is a no-op, even when the query would now succeed. */
  method StuckAfterFailedQuery(windowId: int, tabs: seq<Option<int>>, randoms: seq<real>)
    returns (first: Outcome, second: Outcome, secondTrace: seq<Event>)
    requires |randoms| >= |tabs|
    ensures first == ErrorLogged && second == AlreadyReloading && secondTrace == []
  {
    var worker := new Worker();
    var opts := new OptionsObject();
    var firstTrace;
    first, firstTrace := worker.ReloadAllTabs(windowId, opts, map[], None, QueryFailed, []);
    second, secondTrace := worker.ReloadAllTabs(windowId, opts, map[], None, Tabs(tabs), randoms);
  }

  // ---------------------------------------------------------------------
  // Context-menu clicks
  // ---------------------------------------------------------------------

  const OpenChromeStorePageId := "action--open-store-page-chrome"
  const OpenFirefoxStorePageId := "action--open-store-page-firefox"
  const ReloadAllTabsInWindowId := "page--reload-all-tabs-in-window"

  const ChromeStorePageUrl :=
    "https://chromewebstore.google.com/detail/reload-all-tabs-in-window/fobjljihdlfbamijbmadjkkehmlleaoa"
  const FirefoxStorePageUrl := "https://addons.mozilla.org/en-US/firefox/addon/reloadalltabs-inwindow/"

  /** The tab a click happened in. */
  datatype Tab = Tab(id: Option<int>, windowId: int)

  /** What a click leads to. */
  datatype ClickAction = OpenTab(url: string) | StartReload(windowId: int) | NoAction

  /** The `contextMenus.onClicked` listener: the two store entries open their
      page, the page entry reloads the clicked tab's window when there is a
      tab, and any other id does nothing. */
  function OnMenuClicked(menuItemId: string, currentTab: Option<Tab>): (a: ClickAction)
    ensures a.OpenTab? <==> menuItemId == OpenChromeStorePageId || menuItemId == OpenFirefoxStorePageId
    ensures menuItemId == OpenChromeStorePageId ==> a == OpenTab(ChromeStorePageUrl)
    ensures menuItemId == OpenFirefoxStorePageId ==> a == OpenTab(FirefoxStorePageUrl)
    ensures a.StartReload? <==> menuItemId == ReloadAllTabsInWindowId && currentTab.Some?
    ensures a.StartReload? ==> a.windowId == currentTab.value.windowId
  {
    if menuItemId == OpenChromeStorePageId then OpenTab(ChromeStorePageUrl)
    else if menuItemId == OpenFirefoxStorePageId then OpenTab(FirefoxStorePageUrl)
    else if menuItemId == ReloadAllTabsInWindowId then
      (if currentTab.Some? then StartReload(currentTab.value.windowId) else NoAction)
    else NoAction
  }
}
